=== FILE: README.md ===
# Voat API client: a Dafny model of its token, throttle and facade logic

This project models the pure logic of a Python client for the Voat forum API
(`py_voat`, with its earlier revision `voat_api`). Under the HTTP calls that logic is:

- the lifecycle of the bearer `AuthToken`: lifetime validation, the expiry check on every
  read, and the `Authorization` header;
- the status-code table of `handle_code`;
- the client facade: the login flag, request paths and JSON bodies, the uniform response
  policy, and the mapping from listing JSON to `Submission` records;
- the one-call-per-second throttle.

The token is obtained with the resource-owner password grant of section 4.3.2 of RFC 6749.
Its fields come from the token response of section 5.1. The header has the form of
section 2.1 of RFC 6750.

Each public method is a pure function. Its inputs are the client state, the clock (an
integer count of milliseconds, `Clock.Second` of them to the second) and the response
the transport returns. A token lifetime counts seconds, as `expires_in` does, and is
scaled to the clock when the deadline is computed. Its output is the
new state, the request handed to the transport (`None` when the method raised first) and
the outcome: a `Result` whose failures are the exceptions the source raises.

All three revisions of `AuthToken` run one state machine. It takes a `Revision` argument
that chooses which exceptions are raised.

Modules: `Wrappers` (Option, Result), `Clock` (the clock unit), `Text` (ASCII digit parsing, int formatting,
`capitalize`), `Exceptions`, `Helpers`, `Http`, `Tokens`, `Entities`, `Routes`,
`Throttle`, `Api` (py_voat/api.py) and `Legacy` (voat_api/voat_api.py).

The model follows the code where its behaviour is surprising:

- `get_auth` returns nothing on a failed HTTP call. It does not raise an
  authentication error.
- A negative int lifetime is accepted. It yields a token that is already expired.
- A `success: false` body is raised as a `VoatException` carrying the message. In
  `get_post` the message string itself is raised, which Python turns into a TypeError
  (`NonException`).
- Any other failed status becomes a `VoatException` carrying the code. There is no
  separate transport-error class.
- `login` marks the client logged in even when it got no token. The next mutating call
  then fails on the missing token (`MissingToken`, Python's AttributeError), not on the
  login guard.
- Every lookup of a method on the client is throttled. So `submit_url` and `submit_text`
  are throttled twice, once for themselves and once for the `submit_post` they call.
  They therefore always run at least one second after they are called.

## Model

| member | source | states |
|---|---|---|
| Text.ParseShowDecimal | py_voat/classes.py:23-25 | `int()` of the decimal text of any natural number gives that number back |
| Text.ParseLeadingZeros | py_voat/classes.py:23-25 | leading zeros do not change the number `int()` reads from a digit string |
| Text.FormatIntRoundTrip | py_voat/api.py:111-114 | the text that `format` produces for a post id, minus sign included, parses back to the same id |
| Text.FormatInt | py_voat/api.py:112 | the text of a post id is canonical: a minus sign exactly for negative ids, no leading zero, and exactly `0` for zero |
| Text.Capitalize | py_voat/classes.py:67 | `str.capitalize` on ASCII: same length, first character upper-cased, every later one lower-cased |
| Text.CapitalizeIdempotent | py_voat/classes.py:67 | capitalizing an already capitalized scheme name leaves it unchanged |
| Text.CapitalizeIgnoresCase | py_voat/classes.py:67 | two scheme names that differ only in letter case capitalize to the same text |
| Helpers.HandleCode | py_voat/helpers.py:5-14 | never returns normally. 401 gives the no-auth error, 404 not-found and 429 rate-limit, each if and only if. Every other code gives the generic exception carrying that code |
| Helpers.HandleError | py_voat/helpers.py:17-19 | always raises a generic `VoatException` carrying exactly its argument |
| Helpers.HandleCodeFollowsTable | py_voat/helpers.py:5-14 | agrees with the three-entry status table and falls back to the generic error carrying the code |
| Helpers.HandleCodeRecoversStatus | py_voat/helpers.py:5-14 | the raised error determines the status it was raised for |
| Helpers.HandleCodeInjective | py_voat/helpers.py:5-14 | distinct statuses raise distinct errors |
| Helpers.HandleErrorIsFallback | py_voat/helpers.py:5-19 | every status outside the table is reported exactly as `handle_error` reports the bare code |
| Tokens.CoerceExpiry | py_voat/classes.py:23-27 | accepts exactly ints (kept unchanged) and non-empty all-digit strings (made non-negative ints); refuses every other value |
| Tokens.DigitStringExpiry | py_voat/classes.py:23-25 | a digit string lifetime, leading zeros included, is converted to the number it spells |
| Tokens.NewToken | py_voat/classes.py:22-32 | succeeds if and only if the lifetime is an int or a digit string, otherwise raises the revision's bad-expiry error. Stores username, secret, type, build time and the lifetime as converted: an int unchanged, a digit string as the number it spells |
| Tokens.ReadToken | py_voat/classes.py:53-58 | succeeds strictly before build time plus the lifetime in seconds and then returns exactly the stored secret. Fails with the revision's expiry error from that instant on |
| Tokens.ExpiryIsPermanent | py_voat/classes.py:53-58 | once a read fails, every later read fails the same way |
| Tokens.LifetimeWindow | py_voat/classes.py:22-58 | an int lifetime always passes. The token is readable exactly while fewer seconds than the lifetime have elapsed, so a lifetime of zero or less is expired on the first read |
| Tokens.LifetimeBoundary | py_voat/classes.py:22-58 | a token with a lifetime of d seconds still reads one tick before d seconds have passed and fails once they have |
| Tokens.Headers | py_voat/classes.py:64-69 | fails with the expiry error exactly when the token read does. Otherwise it is a single `Authorization` entry: the capitalized token type, one space, then the secret |
| Tokens.Credentials | py_voat/classes.py:67-68 | the header value is the capitalized token type, then one space, then the secret; the secret is recoverable as the suffix after the scheme |
| Tokens.BearerCredentials | py_voat/classes.py:67-68 | a token of type "bearer" in any case gives the header `Bearer <secret>` |
| Tokens.Str | py_voat/authentication.py:37-39 | `str(token)` returns the secret before the deadline and fails with the generic expiry error from it on |
| Tokens.OlderRevisions | py_voat/authentication.py:13-35 | the older token accepts the same lifetimes, stores the same token and allows the same reads as the current one, raising the generic exception instead |
| Tokens.TokenRequest | py_voat/classes.py:36-45 | the token request is a POST to `/api/token`. Its form holds exactly `grant_type=password`, `username` and `password`, and the API key goes in the `Voat-ApiKey` header |
| Tokens.GetAuth | py_voat/classes.py:46-51 | an ok response gives a token built from `userName`, `access_token`, `token_type` and `expires_in`, or the bad-expiry error. Any other response gives nothing |
| Entities.ToSubmission | py_voat/api.py:50-55 | copies title, author and id. Comments are empty. The post is a link if and only if `url` is non-empty, and its content is empty only when both `content` and `url` are |
| Entities.ToSubmissionKinds | py_voat/api.py:50-55 | a text post keeps its text and is not a link. A post without text shows its url. A post with both shows its text and is flagged as a link |
| Entities.ToSubmissions | py_voat/api.py:47-57 | one submission per listing element, same length, same order |
| Entities.ToSubmissionsAppend | py_voat/api.py:47-57 | mapping a concatenated listing is the concatenation of the mapped parts |
| Routes.SubversePath | py_voat/api.py:42 | the subverse path is the `api/v1/v/` prefix followed by exactly the subverse name |
| Routes.PostPath | py_voat/api.py:111-114 | the post path gives back the id and the optional subverse (any text), so `submissions/{id}` and `v/{sub}/{id}` never collide |
| Routes.PostPathInjective | py_voat/api.py:128-131 | distinct (id, subverse) pairs get distinct paths |
| Routes.PostBody | py_voat/api.py:76-81 | the body has exactly the keys `title` and one of `url` (if and only if a link) or `content` (if and only if text), never both, with the given values |
| Routes.PostBodyRoundTrip | py_voat/api.py:133-137 | title, content and kind are read back unchanged from the body |
| Throttle.OnLookup | py_voat/api.py:169-176 | a callable lookup runs at the later of now and the previous stamp plus one second, and records that time. There is no wait without a previous stamp. A non-callable lookup neither waits nor changes the stamp |
| Throttle.LookupSpacing | py_voat/api.py:173-175 | a callable lookup never runs within a second of the previous stamp, and does not wait once a second has passed |
| Throttle.Stamps | py_voat/api.py:169-176 | in a run of calls each stamp is at least one second after the one before, and the first is at least one second after the previous stamp |
| Throttle.StampsSpan | py_voat/api.py:169-176 | N consecutive calls span at least N-1 seconds |
| Api.NewClient | py_voat/api.py:15-18 | a new client is logged out, has no previous call and no token |
| Api.Enter | py_voat/api.py:169-176 | a method lookup changes only the stamp, which becomes the instant the method body runs |
| Api.Respond | py_voat/api.py:87-94 | succeeds if and only if ok and success, returning `data`. Ok without success gives the API error carrying `error`. Not ok delegates to `handle_code` and keeps the status recoverable |
| Api.AuthHeaders | py_voat/api.py:84-86 | the header exists if and only if a token is stored and its deadline has not passed, and it then holds the token's credentials. Otherwise the error is the missing-token or the expiry error |
| Api.Login | py_voat/api.py:26-39 | runs when the throttle lets it and sends the token request. Unless the lifetime is refused, the client is logged in, even when no token came back. On an ok response it stores exactly the token `get_auth` builds: the response's username, secret, type and coerced lifetime, stamped with the instant login ran. A refused lifetime changes nothing but the stamp |
| Api.GetSubverse | py_voat/api.py:41-61 | runs when the throttle lets it and GETs `v/{subverse}` without login. On success it maps every element in order; on failure it follows the response policy |
| Api.Authorized | py_voat/api.py:73-94 | a mutating call sends a request if and only if logged in with an unexpired token. Otherwise it raises the guard error, or the header error, before any request |
| Api.SubmitPost | py_voat/api.py:63-94 | runs when the throttle lets it. Logged out, it raises before building a request. Otherwise it sends a POST to `v/{subverse}` with the title-plus-url-or-content body and the token's Authorization header exactly when the token is unexpired at that instant, and applies the response policy. Logged in without a usable token, it raises the missing-token or expiry error without sending |
| Api.SubmitUrl | py_voat/api.py:97-101 | a link post. Logged out, it raises with no request. It sends exactly when the stored token is unexpired, with the link body and the response policy, one second after its own throttled lookup because of the second lookup of `submit_post` |
| Api.SubmitText | py_voat/api.py:103-107 | a text post, with the same guard, the same send condition and response policy, and the same extra second |
| Api.SubmitUrlIsLinkPost | py_voat/api.py:97-101 | is exactly `submit_post(..., True)` made one second after its own lookup; so it runs one second after a direct `submit_post` would, and whenever it sends, it sends the same request with the same outcome |
| Api.SubmitTextIsTextPost | py_voat/api.py:103-107 | is exactly `submit_post(..., False)` made one second after its own lookup, with the same consequences |
| Api.GetPost | py_voat/api.py:110-123 | runs when the throttle lets it and GETs the post path without login. The response policy applies, except that a `success: false` raises the message string itself |
| Api.Edit | py_voat/api.py:125-148 | runs when the throttle lets it. Logged out, it raises the no-auth error with no request. Logged in, it sends a PUT to the post path with the post body and the token's Authorization header exactly when the token is unexpired, and otherwise raises the missing-token or expiry error without sending |
| Api.DeletePost | py_voat/api.py:150-163 | runs when the throttle lets it. Logged out, it raises the no-auth error with no request. Logged in, it sends a DELETE to the post path with an empty body and the token's Authorization header exactly when the token is unexpired, returning nothing on success, and otherwise raises the missing-token or expiry error without sending |
| Api.NotFoundSurfaces | py_voat/api.py:41-163 | a 404 becomes the not-found error from `get_subverse` and `get_post`, and from `submit_post`, `submit_url`, `submit_text`, `edit` and `delete_post` whenever they sent a request. `login` is the exception: a failed token response yields no token and no error |
| Api.ApiErrorSurfaces | py_voat/api.py:41-163 | a `success: false` body becomes an error carrying the server's message from `get_subverse` and `get_post`, and from `submit_post`, `submit_url`, `submit_text`, `edit` and `delete_post` whenever they sent a request |
| Api.Invoke | py_voat/api.py:169-176 | every public method leaves its run instant as the stamp and never runs within a second of the previous stamp |
| Api.SuccessiveCalls | py_voat/api.py:169-176 | two successive method calls on one client run at least a second apart |
| Api.Session | py_voat/api.py:169-176 | in a run of method calls each one runs at least a second after the one before, and the first at least a second after the previous stamp |
| Api.SessionSpan | py_voat/api.py:169-176 | N consecutive method calls on one client span at least N-1 seconds |
| Legacy.NewLegacyClient | voat_api/voat_api.py:53-55 | a new client is logged out with no token and no Authorization header |
| Legacy.SessionHeaders | voat_api/voat_api.py:75-78 | the session adds the Authorization header if and only if login fixed one |
| Legacy.Login | voat_api/voat_api.py:63-78 | unless the lifetime is refused, the client is marked logged in before the header is read. The header is fixed as scheme, space and secret exactly when the new token has a positive lifetime; a lifetime of zero or less raises the generic expiry error. No token, or an expired one, leaves the client logged in, keeping whatever header an earlier login fixed |
| Legacy.LegacyTokenErrors | voat_api/voat_api.py:18-44 | this token raises only the generic exception: for a lifetime that is neither an int nor a digit string, and for a read or `str()` from the deadline on |
| Legacy.GetSubverse | voat_api/voat_api.py:80-88 | returns the raw data on success and raises the message on `success: false`. On a failed HTTP call it returns nothing instead of raising |
| Legacy.Submit | voat_api/voat_api.py:90-118 | logged out, it raises with no request. Otherwise it posts the body with the login-time header. A failed HTTP call raises the generic exception carrying the bare status code |
| Legacy.SubmitUrl | voat_api/voat_api.py:122-126 | logged out, it raises the login error with no request. Otherwise it POSTs to `v/{subverse}` a body of exactly `title` and `url` with the session's header, and reports the outcome as `submit` does, bare status code included |
| Legacy.SubmitText | voat_api/voat_api.py:128-132 | logged out, it raises the login error with no request. Otherwise it POSTs to `v/{subverse}` a body of exactly `title` and `content` with the session's header, and reports the outcome as `submit` does |
| Legacy.HeaderFixedAtLogin | voat_api/voat_api.py:71-78 | after a successful login every submit sends the credentials read at login, never rechecked for expiry |
| Legacy.SubmitHasNoStatusTable | voat_api/voat_api.py:111-118 | a 404 on submit is the generic exception carrying 404, not the not-found error |

## Left out

- HTTP transport is not modelled: `requests.Session`, `requests.post`/`delete`, and the headers fixed on the session (`Voat-ApiKey`, `Content-Type`). A response is an input record; a request is an output record with the per-call headers. In `Legacy` the request's headers also carry the Authorization header that login fixed on the session, since that header varies with the client's state; the constant session headers are not repeated.
- DeletePost: the source sends the DELETE through a bare `requests.delete` rather than the session, so the session's `Voat-ApiKey` header is not attached. The `Request` record, which omits session headers, does not show this.
- JSON encoding and decoding are not modelled. Bodies are string maps, and responses arrive already decoded. A missing key (Python's KeyError) is not modelled. A null `content` or `url` is folded into the empty string, which is falsy in the same way.
- Method bodies take no time: a call runs at the one instant its throttled lookup ends. So a token built by `login` is stamped with that instant, while the source stamps `gotten_at` after the token request returns; the source's deadline is later than the model's by that round trip.
- The wall clock is an integer parameter in milliseconds, and `time.sleep` is a returned wait. Floating-point time is not modelled, and an int lifetime is exact to the millisecond.
- Routes.PostPathInjective: post ids are modelled as ints only. The source formats any value into the path, so an id holding a slash collides: `get_post("b/1", "a")` and `get_post(1, "a/b")` both request `api/v1/v/a/b/1`. The round trip of `Routes.PostPath` likewise holds for int ids only.
- Throttle.OnLookup: reads the clock once per lookup. The source reads it three times (api.py:173-175), so its real wait differs from the model's by the drift between those readings.
- Throttle.OnLookup: treats any recorded stamp as present. The source tests `last_call` for truthiness, so a stamp of exactly 0.0 would count as absent.
- Only method lookups are throttled in the facade functions. Plain attribute reads (`self.logged_in`, `self.session`, `self.auth_token`) are non-callable lookups; `OnLookup` shows they change nothing, so the facade does not list them.
- The python2 `__getattr__` shim (api.py:166-167) is not modelled.
- Python quirks are not reproduced: `bool` as a subclass of `int`, `str.isdigit` accepting non-ASCII digits, and `str.capitalize` on non-ASCII letters. Digits and case are ASCII only.
- `login` also stores the username and password on the client. Nothing reads them again, so the client state leaves them out.
- Names the revisions use but never define are modelled with their evident meaning: `VoatBinder` (voat_api.py:81,102,136), `Voat.base_url` and `time` in authentication.py, and `VoatBadExpiry` and `VoatApiLimitException`, which exceptions.py lacks. The two exceptions each get their own variant of the error datatype; `VoatBinder` is read as the client class itself, and `Voat.base_url` and `time` need no counterpart because paths exclude the base URL and the clock is a parameter.
- `base_url` (py_voat.constants, which is not part of this model) is an opaque prefix. Paths are the text that follows it, including the leading slash of `/api/token`.
- The token property setter only stores the secret. The constructor does that, and nothing reassigns the token later, so the setter has no separate member.
- setup.py (packaging) is not modelled.
- The `Comment` and `Message` records are declared for shape only, as in the source. No operation builds them.

=== FILE: api.dfy ===
/** The client facade of py_voat/api.py. Every public method is a function from the
    client state, the clock and the transport's response to a `Step`: the new state,
    the instant the call ran, the request handed to the transport (if one was built)
    and the outcome. Looking a method up on the client runs the throttle first. */
module Api {
  import opened Wrappers
  import opened Exceptions
  import opened Helpers
  import opened Http
  import opened Tokens
  import Entities
  import opened Routes
  import opened Throttle
  import opened Clock

  /** The client's fields: API key, login flag, the stamp of the previous method
      lookup, and whatever token login stored (`None` also when login got none). */
  datatype Client = Client(apiKey: string, loggedIn: bool, lastCall: Option<int>, authToken: Option<AuthToken>)

  datatype Step<T> = Step(client: Client, at: int, sent: Option<Request>, result: Result<T, VoatError>)

  /** `Voat(api_key)`. */
  function NewClient(apiKey: string): (c: Client)
    ensures c.apiKey == apiKey && !c.loggedIn && c.lastCall.None? && c.authToken.None?
  {
    Client(apiKey, false, None, None)
  }

  /** Looking up a public method: the throttle sleeps if needed and stamps the clock.
      Returns the client after the lookup and the instant the method body runs. */
  function Enter(c: Client, now: int): (e: (Client, int))
    ensures e.0 == c.(lastCall := Some(e.1))
    ensures c.lastCall.None? ==> e.1 == now
    ensures c.lastCall.Some? ==> e.1 == Max(now, c.lastCall.value + Second)
  {
    var l := OnLookup(c.lastCall, now, true);
    (c.(lastCall := l.lastCall), l.at)
  }

  /** How a `success: false` body is reported: wrapped in a `VoatException`, or, in
      `get_post`, by raising the message string itself. */
  datatype ErrorStyle = Wrapped | Raw

  function ApiError(style: ErrorStyle, message: string): VoatError {
    match style
    case Wrapped => VoatException(Message(message))
    case Raw => NonException(message)
  }

  /** The response policy shared by every method. */
  function Respond<D>(resp: Response<D>, style: ErrorStyle): (r: Result<D, VoatError>)
    ensures r.Success? <==> resp.ok && resp.success
    ensures r.Success? ==> r.value == resp.data
    ensures resp.ok && !resp.success ==> r.error == ApiError(style, resp.error)
    ensures !resp.ok ==> r.error == HandleCode(resp.status).error
    ensures !resp.ok ==> StatusOf(r.error) == Some(resp.status)
  {
    if !resp.ok then
      var e := HandleCode(resp.status);
      HandleCodeRecoversStatus(resp.status);
      Failure(e.error)
    else if resp.success then Success(resp.data)
    else Failure(ApiError(style, resp.error))
  }

  /** `self.auth_token.headers` evaluated at `at`. */
  function AuthHeaders(c: Client, at: int): (r: Result<map<string, string>, VoatError>)
    ensures r.Success? <==> c.authToken.Some? && at < Deadline(c.authToken.value)
    ensures c.authToken.None? ==> r == Failure(MissingToken)
    ensures c.authToken.Some? && r.Failure? ==> r.error == ExpiredToken(ThisTokenIsExpired)
    ensures r.Success? ==>
              r.value == map["Authorization" := Credentials(c.authToken.value.tokenType, c.authToken.value.secret)]
  {
    match c.authToken
    case None => Failure(MissingToken)
    case Some(t) => Headers(t, at)
  }

  /** `login`: exchanges the credentials for a token and marks the client logged in,
      even when the exchange returned no token. */
  function Login(c: Client, now: int, username: string, password: string, resp: Response<TokenJson>): (r: Step<()>)
    ensures r.at == Enter(c, now).1
    ensures r.sent == Some(TokenRequest(username, password, c.apiKey))
    ensures r.client.lastCall == Some(r.at) && r.client.apiKey == c.apiKey
    ensures r.result.Success? <==> !resp.ok || CoerceExpiry(resp.data.expiresIn).Some?
    ensures r.result.Success? ==> r.client.loggedIn
    ensures r.result.Failure? ==> r.client == c.(lastCall := Some(r.at)) && r.result.error == BadExpiry(BadExpiryDate)
    ensures !resp.ok ==> r.client.loggedIn && r.client.authToken.None?
    ensures resp.ok && r.result.Success? ==>
              && r.client.authToken.Some?
              && r.client.authToken.value.secret == resp.data.accessToken
              && r.client.authToken.value.tokenType == resp.data.tokenType
              && r.client.authToken.value.gottenAt == r.at
              && r.client.authToken.value.username == resp.data.userName
              && Some(r.client.authToken.value.expiryDate) == CoerceExpiry(resp.data.expiresIn)
    ensures resp.ok && r.result.Success? ==> r.client.authToken == GetAuth(Current, resp, r.at).value
  {
    var (c1, at) := Enter(c, now);
    var sent := Some(TokenRequest(username, password, c.apiKey));
    match GetAuth(Current, resp, at)
    case Failure(e) => Step(c1, at, sent, Failure(e))
    case Success(token) => Step(c1.(loggedIn := true, authToken := token), at, sent, Success(()))
  }

  /** `get_subverse`: lists a subverse, one `Submission` per element, in order. */
  function GetSubverse(c: Client, now: int, subverse: string, resp: Response<seq<Entities.SubmissionJson>>): (r: Step<seq<Entities.Submission>>)
    ensures r.client == c.(lastCall := Some(r.at)) && r.at == Enter(c, now).1
    ensures r.sent == Some(Request(Get, SubversePath(subverse), map[], map[]))
    ensures r.result.Success? <==> resp.ok && resp.success
    ensures r.result.Success? ==>
              && |r.result.value| == |resp.data|
              && forall i :: 0 <= i < |resp.data| ==> r.result.value[i] == Entities.ToSubmission(resp.data[i])
    ensures r.result.Failure? ==> r.result.error == Respond(resp, Wrapped).error
  {
    var (c1, at) := Enter(c, now);
    var sent := Some(Request(Get, SubversePath(subverse), map[], map[]));
    match Respond(resp, Wrapped)
    case Failure(e) => Step(c1, at, sent, Failure(e))
    case Success(data) => Step(c1, at, sent, Success(Entities.ToSubmissions(data)))
  }

  /** The body of a mutating method once the throttle has run: the login guard, then
      the Authorization header, then the request and the response policy. */
  function Authorized<D>(c: Client, at: int, guard: VoatError, verb: Verb, path: string,
                         body: map<string, string>, resp: Response<D>): (r: Step<D>)
    ensures r.client == c && r.at == at
    ensures !c.loggedIn ==> r.sent.None? && r.result == Failure(guard)
    ensures r.sent.Some? <==> c.loggedIn && c.authToken.Some? && at < Deadline(c.authToken.value)
    ensures c.loggedIn && r.sent.None? ==> r.result == Failure(AuthHeaders(c, at).error)
    ensures r.sent.Some? ==>
              && r.sent.value == Request(verb, path, body, AuthHeaders(c, at).value)
              && r.result == Respond(resp, Wrapped)
  {
    if !c.loggedIn then Step(c, at, None, Failure(guard))
    else match AuthHeaders(c, at)
      case Failure(e) => Step(c, at, None, Failure(e))
      case Success(h) => Step(c, at, Some(Request(verb, path, body, h)), Respond(resp, Wrapped))
  }

  /** `submit_post`: posts a link or a text into a subverse. */
  function SubmitPost<D>(c: Client, now: int, title: string, content: string, subverse: string,
                         isUrl: bool, resp: Response<D>): (r: Step<D>)
    ensures r.client == c.(lastCall := Some(r.at)) && r.at == Enter(c, now).1
    ensures !c.loggedIn ==> r.sent.None? && r.result == Failure(VoatException(Message(LoginToPost)))
    ensures r.sent.Some? <==> c.loggedIn && c.authToken.Some? && r.at < Deadline(c.authToken.value)
    ensures r.sent.Some? ==>
              && r.sent.value.verb == Post
              && r.sent.value.path == SubversePath(subverse)
              && r.sent.value.body == PostBody(title, content, isUrl)
              && r.sent.value.headers == map["Authorization" := Credentials(c.authToken.value.tokenType, c.authToken.value.secret)]
              && r.result == Respond(resp, Wrapped)
    ensures c.loggedIn && r.sent.None? ==> r.result == Failure(AuthHeaders(c, r.at).error)
  {
    var (c1, at) := Enter(c, now);
    Authorized(c1, at, VoatException(Message(LoginToPost)), Post, SubversePath(subverse), PostBody(title, content, isUrl), resp)
  }

  /** `submit_url`: a link post. Looking up `submit_post` inside it is a second
      throttled call. */
  function SubmitUrl<D>(c: Client, now: int, title: string, url: string, subverse: string, resp: Response<D>): (r: Step<D>)
    ensures r.client == c.(lastCall := Some(r.at)) && r.at == Enter(c, now).1 + Second
    ensures !c.loggedIn ==> r.sent.None? && r.result == Failure(VoatException(Message(LoginToPost)))
    ensures r.sent.Some? <==> c.loggedIn && c.authToken.Some? && r.at < Deadline(c.authToken.value)
    ensures r.sent.Some? ==> r.sent.value.body == PostBody(title, url, true) && r.result == Respond(resp, Wrapped)
  {
    var (c1, at) := Enter(c, now);
    SubmitPost(c1, at, title, url, subverse, true, resp)
  }

  /** `submit_text`: a text post, likewise through a second throttled lookup. */
  function SubmitText<D>(c: Client, now: int, title: string, content: string, subverse: string, resp: Response<D>): (r: Step<D>)
    ensures r.client == c.(lastCall := Some(r.at)) && r.at == Enter(c, now).1 + Second
    ensures !c.loggedIn ==> r.sent.None? && r.result == Failure(VoatException(Message(LoginToPost)))
    ensures r.sent.Some? <==> c.loggedIn && c.authToken.Some? && r.at < Deadline(c.authToken.value)
    ensures r.sent.Some? ==> r.sent.value.body == PostBody(title, content, false) && r.result == Respond(resp, Wrapped)
  {
    var (c1, at) := Enter(c, now);
    SubmitPost(c1, at, title, content, subverse, false, resp)
  }

  /** `submit_url` is `submit_post(..., True)` made one second after its own lookup:
      it runs exactly one second later than a direct `submit_post` would, and
      whenever it sends anything, it sends the same request and reports the same
      outcome. */
  lemma SubmitUrlIsLinkPost<D>(c: Client, now: int, title: string, url: string, subverse: string, resp: Response<D>)
    ensures SubmitUrl(c, now, title, url, subverse, resp)
            == SubmitPost(c, Enter(c, now).1 + Second, title, url, subverse, true, resp)
    ensures SubmitUrl(c, now, title, url, subverse, resp).at == SubmitPost(c, now, title, url, subverse, true, resp).at + Second
    ensures SubmitUrl(c, now, title, url, subverse, resp).sent.Some? ==>
              && SubmitUrl(c, now, title, url, subverse, resp).sent == SubmitPost(c, now, title, url, subverse, true, resp).sent
              && SubmitUrl(c, now, title, url, subverse, resp).result == SubmitPost(c, now, title, url, subverse, true, resp).result
  {
  }

  /** `submit_text` is likewise `submit_post(..., False)` one second after its own lookup. */
  lemma SubmitTextIsTextPost<D>(c: Client, now: int, title: string, content: string, subverse: string, resp: Response<D>)
    ensures SubmitText(c, now, title, content, subverse, resp)
            == SubmitPost(c, Enter(c, now).1 + Second, title, content, subverse, false, resp)
    ensures SubmitText(c, now, title, content, subverse, resp).at == SubmitPost(c, now, title, content, subverse, false, resp).at + Second
    ensures SubmitText(c, now, title, content, subverse, resp).sent.Some? ==>
              && SubmitText(c, now, title, content, subverse, resp).sent == SubmitPost(c, now, title, content, subverse, false, resp).sent
              && SubmitText(c, now, title, content, subverse, resp).result == SubmitPost(c, now, title, content, subverse, false, resp).result
  {
  }

  /** `get_post`: fetches one post; needs no login. */
  function GetPost<D>(c: Client, now: int, postId: int, subverse: Option<string>, resp: Response<D>): (r: Step<D>)
    ensures r.client == c.(lastCall := Some(r.at)) && r.at == Enter(c, now).1
    ensures r.sent == Some(Request(Get, PostPath(postId, subverse), map[], map[]))
    ensures r.result == Respond(resp, Raw)
  {
    var (c1, at) := Enter(c, now);
    Step(c1, at, Some(Request(Get, PostPath(postId, subverse), map[], map[])), Respond(resp, Raw))
  }

  /** `edit`: replaces a post's title and content. */
  function Edit<D>(c: Client, now: int, title: string, content: string, postId: int,
                   subverse: Option<string>, isUrl: bool, resp: Response<D>): (r: Step<D>)
    ensures r.client == c.(lastCall := Some(r.at)) && r.at == Enter(c, now).1
    ensures !c.loggedIn ==> r.sent.None? && r.result == Failure(NoAuth(AuthenticateToPost))
    ensures r.sent.Some? <==> c.loggedIn && c.authToken.Some? && r.at < Deadline(c.authToken.value)
    ensures c.loggedIn && r.sent.None? ==> r.result == Failure(AuthHeaders(c, r.at).error)
    ensures r.sent.Some? ==>
              && r.sent.value.verb == Put
              && r.sent.value.path == PostPath(postId, subverse)
              && r.sent.value.body == PostBody(title, content, isUrl)
              && r.sent.value.headers == map["Authorization" := Credentials(c.authToken.value.tokenType, c.authToken.value.secret)]
              && r.result == Respond(resp, Wrapped)
  {
    var (c1, at) := Enter(c, now);
    Authorized(c1, at, NoAuth(AuthenticateToPost), Put, PostPath(postId, subverse), PostBody(title, content, isUrl), resp)
  }

  /** `delete_post`: deletes a post and returns nothing on success. */
  function DeletePost<D>(c: Client, now: int, postId: int, subverse: Option<string>, resp: Response<D>): (r: Step<()>)
    ensures r.client == c.(lastCall := Some(r.at)) && r.at == Enter(c, now).1
    ensures !c.loggedIn ==> r.sent.None? && r.result == Failure(NoAuth(LoginToDelete))
    ensures r.sent.Some? <==> c.loggedIn && c.authToken.Some? && r.at < Deadline(c.authToken.value)
    ensures c.loggedIn && r.sent.None? ==> r.result == Failure(AuthHeaders(c, r.at).error)
    ensures r.sent.Some? ==>
              && r.sent.value.verb == Delete
              && r.sent.value.path == PostPath(postId, subverse)
              && r.sent.value.body == map[]
              && r.sent.value.headers == map["Authorization" := Credentials(c.authToken.value.tokenType, c.authToken.value.secret)]
              && (r.result.Success? <==> resp.ok && resp.success)
              && (r.result.Failure? ==> r.result.error == Respond(resp, Wrapped).error)
  {
    var (c1, at) := Enter(c, now);
    var s := Authorized(c1, at, NoAuth(LoginToDelete), Delete, PostPath(postId, subverse), map[], resp);
    match s.result
    case Success(_) => Step(s.client, s.at, s.sent, Success(()))
    case Failure(e) => Step(s.client, s.at, s.sent, Failure(e))
  }

  /** A 404 from the server surfaces as `VoatThingNotFound` from `get_subverse`,
      `get_post`, and each submit, edit and delete that reached the server. `login`
      is the exception: `get_auth` turns a failed response into no token. */
  lemma NotFoundSurfaces<D>(c: Client, now: int, title: string, content: string, postId: int,
                            subverse: string, where: Option<string>, isUrl: bool,
                            resp: Response<D>, listing: Response<seq<Entities.SubmissionJson>>)
    requires !resp.ok && resp.status == 404 && !listing.ok && listing.status == 404
    ensures GetSubverse(c, now, subverse, listing).result.error.ThingNotFound?
    ensures GetPost(c, now, postId, where, resp).result.error.ThingNotFound?
    ensures SubmitPost(c, now, title, content, subverse, isUrl, resp).sent.Some? ==>
              SubmitPost(c, now, title, content, subverse, isUrl, resp).result.error.ThingNotFound?
    ensures SubmitUrl(c, now, title, content, subverse, resp).sent.Some? ==>
              SubmitUrl(c, now, title, content, subverse, resp).result.error.ThingNotFound?
    ensures SubmitText(c, now, title, content, subverse, resp).sent.Some? ==>
              SubmitText(c, now, title, content, subverse, resp).result.error.ThingNotFound?
    ensures Edit(c, now, title, content, postId, where, isUrl, resp).sent.Some? ==>
              Edit(c, now, title, content, postId, where, isUrl, resp).result.error.ThingNotFound?
    ensures DeletePost(c, now, postId, where, resp).sent.Some? ==>
              DeletePost(c, now, postId, where, resp).result.error.ThingNotFound?
  {
  }

  /** A `success: false` body surfaces as an error carrying the server's message
      from `get_subverse`, `get_post`, and each submit, edit and delete that reached
      the server. */
  lemma ApiErrorSurfaces<D>(c: Client, now: int, title: string, content: string, postId: int,
                            subverse: string, where: Option<string>, isUrl: bool,
                            resp: Response<D>, listing: Response<seq<Entities.SubmissionJson>>)
    requires resp.ok && !resp.success && listing.ok && !listing.success
    ensures GetSubverse(c, now, subverse, listing).result == Failure(VoatException(Message(listing.error)))
    ensures GetPost(c, now, postId, where, resp).result == Failure(NonException(resp.error))
    ensures SubmitPost(c, now, title, content, subverse, isUrl, resp).sent.Some? ==>
              SubmitPost(c, now, title, content, subverse, isUrl, resp).result == Failure(VoatException(Message(resp.error)))
    ensures SubmitUrl(c, now, title, content, subverse, resp).sent.Some? ==>
              SubmitUrl(c, now, title, content, subverse, resp).result == Failure(VoatException(Message(resp.error)))
    ensures SubmitText(c, now, title, content, subverse, resp).sent.Some? ==>
              SubmitText(c, now, title, content, subverse, resp).result == Failure(VoatException(Message(resp.error)))
    ensures Edit(c, now, title, content, postId, where, isUrl, resp).sent.Some? ==>
              Edit(c, now, title, content, postId, where, isUrl, resp).result == Failure(VoatException(Message(resp.error)))
    ensures DeletePost(c, now, postId, where, resp).sent.Some? ==>
              DeletePost(c, now, postId, where, resp).result == Failure(VoatException(Message(resp.error)))
  {
  }

  /** One public method call, with its arguments and the response the transport
      returns for it. */
  datatype Invocation<D> =
    | LoginCall(username: string, password: string, tokenResp: Response<TokenJson>)
    | GetSubverseCall(subverse: string, listing: Response<seq<Entities.SubmissionJson>>)
    | SubmitPostCall(title: string, content: string, subverse: string, isUrl: bool, resp: Response<D>)
    | SubmitUrlCall(title: string, url: string, subverse: string, resp: Response<D>)
    | SubmitTextCall(title: string, content: string, subverse: string, resp: Response<D>)
    | GetPostCall(postId: int, where: Option<string>, resp: Response<D>)
    | EditCall(title: string, content: string, postId: int, where: Option<string>, isUrl: bool, resp: Response<D>)
    | DeletePostCall(postId: int, where: Option<string>, resp: Response<D>)

  /** Runs one public method at `now`: the client after it and the instant its body ran. */
  function Invoke<D>(c: Client, now: int, call: Invocation<D>): (r: (Client, int))
    ensures r.0.lastCall == Some(r.1) && r.1 >= now
    ensures c.lastCall.Some? ==> r.1 >= c.lastCall.value + Second
  {
    match call
    case LoginCall(u, p, t) => var s := Login(c, now, u, p, t); (s.client, s.at)
    case GetSubverseCall(v, l) => var s := GetSubverse(c, now, v, l); (s.client, s.at)
    case SubmitPostCall(t, x, v, k, q) => var s := SubmitPost(c, now, t, x, v, k, q); (s.client, s.at)
    case SubmitUrlCall(t, x, v, q) => var s := SubmitUrl(c, now, t, x, v, q); (s.client, s.at)
    case SubmitTextCall(t, x, v, q) => var s := SubmitText(c, now, t, x, v, q); (s.client, s.at)
    case GetPostCall(i, w, q) => var s := GetPost(c, now, i, w, q); (s.client, s.at)
    case EditCall(t, x, i, w, k, q) => var s := Edit(c, now, t, x, i, w, k, q); (s.client, s.at)
    case DeletePostCall(i, w, q) => var s := DeletePost(c, now, i, w, q); (s.client, s.at)
  }

  /** Two successive method calls on one client run at least a second apart. */
  lemma SuccessiveCalls<D>(c: Client, now: int, first: Invocation<D>, later: int, second: Invocation<D>)
    ensures Invoke(Invoke(c, now, first).0, later, second).1 >= Invoke(c, now, first).1 + Second
  {
  }

  /** The instants at which a run of method calls execute. The first is made
      `calls[0].0` after `start`, each later one `calls[k].0` after the previous
      call returned. */
  function Session<D>(c: Client, start: int, calls: seq<(nat, Invocation<D>)>): (r: seq<int>)
    ensures |r| == |calls|
    ensures |r| > 0 ==> r[0] >= start + calls[0].0
    ensures |r| > 0 && c.lastCall.Some? ==> r[0] >= c.lastCall.value + Second
    ensures forall k :: 0 <= k < |r| - 1 ==> r[k + 1] >= r[k] + Second
    decreases |calls|
  {
    if |calls| == 0 then []
    else
      var (c1, at) := Invoke(c, start + calls[0].0, calls[0].1);
      [at] + Session(c1, at, calls[1..])
  }

  /** N consecutive method calls on one client take at least N - 1 seconds. */
  lemma {:induction false} SessionSpan<D>(c: Client, start: int, calls: seq<(nat, Invocation<D>)>)
    requires |calls| > 0
    ensures Session(c, start, calls)[|calls| - 1] - Session(c, start, calls)[0] >= Second * (|calls| - 1)
    decreases |calls|
  {
    if |calls| > 1 {
      var (c1, at) := Invoke(c, start + calls[0].0, calls[0].1);
      var rest := Session(c1, at, calls[1..]);
      assert Session(c, start, calls) == [at] + rest;
      SessionSpan(c1, at, calls[1..]);
      assert rest[0] >= at + Second;
    }
  }
}

=== FILE: clock.dfy ===
/** The one clock unit both the throttle and the token lifetimes are measured in.
    The model's clock counts milliseconds; the source's `time.time()` counts seconds,
    and a token lifetime (`expires_in`) is a number of seconds. */
module Clock {
  /** One second of the source's clock, in model clock ticks. */
  const Second: int := 1000
}

=== FILE: entities.dfy ===
/** The record shapes of py_voat/classes.py and the mapping from a listing's JSON
    elements to `Submission` records. */
module Entities {

  datatype Comment = Comment(content: string, author: string, id: int)

  datatype Message = Message(title: string, content: string, author: string, id: int)

  /** A post. `content` is the text of a text post or the link of a link post. */
  datatype Submission = Submission(title: string, content: string, comments: seq<Comment>,
                                   author: string, id: int, isUrl: bool)

  /** One element of a listing's `data` array; a missing or null `content`/`url` is "". */
  datatype SubmissionJson = SubmissionJson(title: string, content: string, url: string, userName: string, id: int)

  /** Builds a `Submission` from one listing element. */
  function ToSubmission(j: SubmissionJson): (s: Submission)
    ensures s.title == j.title && s.author == j.userName && s.id == j.id
    ensures s.comments == []
    ensures s.isUrl <==> j.url != ""
    ensures s.content == "" <==> j.content == "" && j.url == ""
  {
    Submission(j.title, if j.content != "" then j.content else j.url, [], j.userName, j.id, j.url != "")
  }

  /** Text posts keep their text, link posts their link; a post with both shows its
      text but is still flagged as a link. */
  lemma ToSubmissionKinds(j: SubmissionJson)
    ensures j.url == "" ==> !ToSubmission(j).isUrl && ToSubmission(j).content == j.content
    ensures j.content == "" ==> ToSubmission(j).content == j.url
    ensures j.content != "" && j.url != "" ==> ToSubmission(j).isUrl && ToSubmission(j).content == j.content
  {
  }

  /** The listing loop: one `Submission` per element, in order. */
  function ToSubmissions(js: seq<SubmissionJson>): (r: seq<Submission>)
    ensures |r| == |js|
    ensures forall i :: 0 <= i < |js| ==> r[i] == ToSubmission(js[i])
  {
    if |js| == 0 then [] else [ToSubmission(js[0])] + ToSubmissions(js[1..])
  }

  /** Mapping a concatenated listing maps each part in place. */
  lemma ToSubmissionsAppend(a: seq<SubmissionJson>, b: seq<SubmissionJson>)
    ensures ToSubmissions(a + b) == ToSubmissions(a) + ToSubmissions(b)
  {
  }
}

=== FILE: exceptions.dfy ===
/** Everything the client can raise, folded into one datatype.
    The `VoatException` base class is raised either with a message or with a bare
    HTTP status code; its subclasses carry fixed messages. Two variants stand for
    Python errors the source provokes without meaning to. */
module Exceptions {
  import opened Wrappers

  /** The argument a `VoatException` was raised with. */
  datatype Payload = Code(code: int) | Message(text: string)

  datatype VoatError =
    | VoatException(payload: Payload)
    | ThingNotFound(message: string)
    | NoAuth(message: string)
    | ExpiredToken(message: string)
    | BadExpiry(message: string)
    | ApiLimit(message: string)
      /** `self.auth_token.headers` when login stored no token: an AttributeError. */
    | MissingToken
      /** `raise req_json["error"]` raises a str: a TypeError carrying that text. */
    | NonException(message: string)

  /** True of the `VoatException` class and its subclasses. */
  predicate IsVoatException(e: VoatError) {
    !e.MissingToken? && !e.NonException?
  }

  const InvalidAuthentication: string := "Invalid authentication!"
  const CouldNotFindThing: string := "Could not find thing!"
  const TooManyRequests: string := "Sending too many requests!"
  const BadExpiryDate: string := "Bad expiry date, must be int!"
  const ThisTokenIsExpired: string := "This token is expired!"
  const TokenIsExpired: string := "Token is expired!"
  const LoginToPost: string := "Need to be logged in to post!"
  const AuthenticateToPost: string := "Need to be authenticated to post something!"
  const LoginToDelete: string := "Need to be logged in to delete post!"
}

=== FILE: helpers.dfy ===
/** The status-code table and the generic error raiser of py_voat/helpers.py.
    Both functions only ever raise, so their results are always `Failure`. */
module Helpers {
  import opened Wrappers
  import opened Exceptions

  /** Maps a failed HTTP status to the exception `handle_code` raises. */
  function HandleCode(code: int): (r: Result<(), VoatError>)
    ensures r.Failure?
    ensures IsVoatException(r.error)
    ensures r.error.NoAuth? <==> code == 401
    ensures r.error.ThingNotFound? <==> code == 404
    ensures r.error.ApiLimit? <==> code == 429
    ensures r.error.VoatException? <==> code != 401 && code != 404 && code != 429
    ensures r.error.VoatException? ==> r.error.payload == Code(code)
  {
    if code == 401 then Failure(NoAuth(InvalidAuthentication))
    else if code == 404 then Failure(ThingNotFound(CouldNotFindThing))
    else if code == 429 then Failure(ApiLimit(TooManyRequests))
    else Failure(VoatException(Code(code)))
  }

  /** Raises a `VoatException` carrying whatever it is given. */
  function HandleError(error: Payload): (r: Result<(), VoatError>)
    ensures r.Failure? && r.error.VoatException? && r.error.payload == error
  {
    Failure(VoatException(error))
  }

  /** The specific statuses, as a table; every other status is reported generically. */
  const StatusTable: map<int, VoatError> :=
    map[401 := NoAuth(InvalidAuthentication),
        404 := ThingNotFound(CouldNotFindThing),
        429 := ApiLimit(TooManyRequests)]

  /** `HandleCode` agrees with the table, and falls back to a generic error carrying the code. */
  lemma HandleCodeFollowsTable(code: int)
    ensures code in StatusTable ==> HandleCode(code).error == StatusTable[code]
    ensures code !in StatusTable ==> HandleCode(code).error == VoatException(Code(code))
  {
  }

  /** Every status outside the table is reported exactly as `handle_error` reports
      the code itself. */
  lemma HandleErrorIsFallback(code: int)
    requires code !in StatusTable
    ensures HandleCode(code) == HandleError(Code(code))
  {
  }

  /** The HTTP status an error stands for, when it stands for one. */
  function StatusOf(e: VoatError): Option<int> {
    match e
    case NoAuth(_) => Some(401)
    case ThingNotFound(_) => Some(404)
    case ApiLimit(_) => Some(429)
    case VoatException(Code(c)) => Some(c)
    case _ => None
  }

  /** No status is lost by the table: the raised error determines the code. */
  lemma HandleCodeRecoversStatus(code: int)
    ensures StatusOf(HandleCode(code).error) == Some(code)
  {
  }

  /** Consequently distinct statuses raise distinct errors. */
  lemma HandleCodeInjective(a: int, b: int)
    requires a != b
    ensures HandleCode(a) != HandleCode(b)
  {
  }
}

=== FILE: http.dfy ===
/** The transport seen from the client: the request it hands over and the
    response it gets back. JSON bodies are already decoded into fields. */
module Http {

  datatype Verb = Get | Post | Put | Delete

  /** One HTTP call. `path` is what follows the configured base URL; `body` is the
      form or JSON object sent; `headers` are the headers given for this call. The
      constant session headers (`Voat-ApiKey`, `Content-Type`) are not repeated here;
      the one session header that varies, the Authorization header the older client
      fixes at login, is included. */
  datatype Request = Request(verb: Verb, path: string, body: map<string, string>, headers: map<string, string>)

  /** A response: `ok` and `status` from the HTTP layer, `success`, `data` and
      `error` from the decoded JSON object. */
  datatype Response<D> = Response(ok: bool, status: int, success: bool, data: D, error: string)
}

=== FILE: legacy.dfy ===
/** The older client of voat_api/voat_api.py. It has no throttle and no status
    table: login fixes the Authorization header on the session once, and a failed
    submit reports the bare status code. */
module Legacy {
  import opened Wrappers
  import opened Exceptions
  import opened Http
  import opened Tokens
  import opened Routes
  import opened Text

  /** API key, login flag, the stored token, and the Authorization header value
      fixed on the session by login. */
  datatype LegacyClient = LegacyClient(apiKey: string, loggedIn: bool, authToken: Option<AuthToken>,
                                       authorization: Option<string>)

  /** One method call: the client after it, the request sent (if any), the outcome. */
  datatype Call<T> = Call(client: LegacyClient, sent: Option<Request>, result: Result<T, VoatError>)

  /** `Voat(api_key)`. */
  function NewLegacyClient(apiKey: string): (c: LegacyClient)
    ensures c.apiKey == apiKey && !c.loggedIn && c.authToken.None? && c.authorization.None?
  {
    LegacyClient(apiKey, false, None, None)
  }

  /** The headers the session adds to every call beyond the API key. */
  function SessionHeaders(c: LegacyClient): (h: map<string, string>)
    ensures c.authorization.None? ==> h == map[]
    ensures c.authorization.Some? ==> h.Keys == {"Authorization"} && h["Authorization"] == c.authorization.value
  {
    match c.authorization
    case None => map[]
    case Some(v) => map["Authorization" := v]
  }

  /** `login` at time `now`. The client is marked logged in before the header is
      built, so a missing or already expired token leaves it logged in, keeping
      whatever header an earlier login fixed. */
  function Login(c: LegacyClient, now: int, username: string, password: string, resp: Response<TokenJson>): (r: Call<()>)
    ensures r.sent == Some(TokenRequest(username, password, c.apiKey))
    ensures r.client.apiKey == c.apiKey
    ensures !resp.ok || CoerceExpiry(resp.data.expiresIn).Some? ==> r.client.loggedIn
    ensures resp.ok && CoerceExpiry(resp.data.expiresIn).None? ==>
              r.client == c && r.result == Failure(VoatException(Message(BadExpiryDate)))
    ensures !resp.ok ==> r.result == Failure(MissingToken) && r.client.authorization == c.authorization
    ensures r.result.Success? <==>
              resp.ok && CoerceExpiry(resp.data.expiresIn).Some? && CoerceExpiry(resp.data.expiresIn).value > 0
    ensures r.result.Success? ==>
              r.client.authorization == Some(Credentials(resp.data.tokenType, resp.data.accessToken))
    ensures resp.ok && CoerceExpiry(resp.data.expiresIn).Some? && CoerceExpiry(resp.data.expiresIn).value <= 0 ==>
              r.result == Failure(VoatException(Message(TokenIsExpired)))
    ensures r.result.Failure? ==> r.client.authorization == c.authorization
  {
    var sent := Some(TokenRequest(username, password, c.apiKey));
    match GetAuth(Legacy, resp, now)
    case Failure(e) => Call(c, sent, Failure(e))
    case Success(None) => Call(c.(loggedIn := true, authToken := None), sent, Failure(MissingToken))
    case Success(Some(t)) =>
      var c1 := c.(loggedIn := true, authToken := Some(t));
      match ReadToken(Legacy, t, now)
      case Failure(e) => Call(c1, sent, Failure(e))
      case Success(secret) => Call(c1.(authorization := Some(Credentials(t.tokenType, secret))), sent, Success(()))
  }

  /** The token this client stores raises only the generic exception: for a lifetime
      that is not an int, and for a read from the deadline on, `str()` included. */
  lemma LegacyTokenErrors(username: string, secret: string, tokenType: string, now: int, text: string,
                          t: AuthToken, at: int)
    requires !IsDigitString(text) && at >= Deadline(t)
    ensures NewToken(Legacy, username, secret, tokenType, OtherValue, now) == Failure(VoatException(Message(BadExpiryDate)))
    ensures NewToken(Legacy, username, secret, tokenType, StrValue(text), now) == Failure(VoatException(Message(BadExpiryDate)))
    ensures ReadToken(Legacy, t, at) == Failure(VoatException(Message(TokenIsExpired)))
    ensures Str(Legacy, t, at) == Failure(VoatException(Message(TokenIsExpired)))
  {
  }

  /** `get_subverse`: the raw listing; a failed HTTP call returns nothing. */
  function GetSubverse<D>(c: LegacyClient, subverse: string, resp: Response<D>): (r: Call<Option<D>>)
    ensures r.client == c
    ensures r.sent == Some(Request(Get, SubversePath(subverse), map[], SessionHeaders(c)))
    ensures !resp.ok ==> r.result == Success(None)
    ensures (r.result.Success? && r.result.value.Some?) <==> resp.ok && resp.success
    ensures r.result.Success? && r.result.value.Some? ==> r.result.value.value == resp.data
    ensures resp.ok && !resp.success ==> r.result == Failure(VoatException(Message(resp.error)))
  {
    var sent := Some(Request(Get, SubversePath(subverse), map[], SessionHeaders(c)));
    if !resp.ok then Call(c, sent, Success(None))
    else if resp.success then Call(c, sent, Success(Some(resp.data)))
    else Call(c, sent, Failure(VoatException(Message(resp.error))))
  }

  /** `submit`: posts with whatever header login fixed, and reports a failed HTTP
      call with its bare status code. */
  function Submit<D>(c: LegacyClient, title: string, content: string, subverse: string, isUrl: bool, resp: Response<D>): (r: Call<D>)
    ensures r.client == c
    ensures !c.loggedIn ==> r.sent.None? && r.result == Failure(VoatException(Message(LoginToPost)))
    ensures c.loggedIn ==> r.sent == Some(Request(Post, SubversePath(subverse), PostBody(title, content, isUrl), SessionHeaders(c)))
    ensures c.loggedIn ==> (r.result.Success? <==> resp.ok && resp.success)
    ensures r.result.Success? ==> r.result.value == resp.data
    ensures c.loggedIn && !resp.ok ==> r.result == Failure(VoatException(Code(resp.status)))
    ensures c.loggedIn && resp.ok && !resp.success ==> r.result == Failure(VoatException(Message(resp.error)))
  {
    if !c.loggedIn then Call(c, None, Failure(VoatException(Message(LoginToPost))))
    else
      var sent := Some(Request(Post, SubversePath(subverse), PostBody(title, content, isUrl), SessionHeaders(c)));
      if !resp.ok then Call(c, sent, Failure(VoatException(Code(resp.status))))
      else if resp.success then Call(c, sent, Success(resp.data))
      else Call(c, sent, Failure(VoatException(Message(resp.error))))
  }

  /** `submit_url`: `submit` of a link post. */
  function SubmitUrl<D>(c: LegacyClient, title: string, url: string, subverse: string, resp: Response<D>): (r: Call<D>)
    ensures r.client == c
    ensures !c.loggedIn ==> r.sent.None? && r.result == Failure(VoatException(Message(LoginToPost)))
    ensures c.loggedIn ==> r.sent.Some? && r.sent.value.verb == Post && r.sent.value.path == SubversePath(subverse)
                           && r.sent.value.headers == SessionHeaders(c)
    ensures c.loggedIn ==> r.sent.value.body.Keys == {"title", "url"} && r.sent.value.body["title"] == title
                           && r.sent.value.body["url"] == url
    ensures c.loggedIn ==> (r.result.Success? <==> resp.ok && resp.success)
    ensures r.result.Success? ==> r.result.value == resp.data
    ensures c.loggedIn && !resp.ok ==> r.result == Failure(VoatException(Code(resp.status)))
    ensures c.loggedIn && resp.ok && !resp.success ==> r.result == Failure(VoatException(Message(resp.error)))
  {
    Submit(c, title, url, subverse, true, resp)
  }

  /** `submit_text`: `submit` of a text post. */
  function SubmitText<D>(c: LegacyClient, title: string, content: string, subverse: string, resp: Response<D>): (r: Call<D>)
    ensures r.client == c
    ensures !c.loggedIn ==> r.sent.None? && r.result == Failure(VoatException(Message(LoginToPost)))
    ensures c.loggedIn ==> r.sent.Some? && r.sent.value.verb == Post && r.sent.value.path == SubversePath(subverse)
                           && r.sent.value.headers == SessionHeaders(c)
    ensures c.loggedIn ==> r.sent.value.body.Keys == {"title", "content"} && r.sent.value.body["title"] == title
                           && r.sent.value.body["content"] == content
    ensures c.loggedIn ==> (r.result.Success? <==> resp.ok && resp.success)
    ensures r.result.Success? ==> r.result.value == resp.data
    ensures c.loggedIn && !resp.ok ==> r.result == Failure(VoatException(Code(resp.status)))
    ensures c.loggedIn && resp.ok && !resp.success ==> r.result == Failure(VoatException(Message(resp.error)))
  {
    Submit(c, title, content, subverse, false, resp)
  }

  /** The header is read once, at login: every later submit sends the credentials
      the login saw, however much time has passed since. */
  lemma HeaderFixedAtLogin<D>(c: LegacyClient, now: int, username: string, password: string, tokenResp: Response<TokenJson>,
                              title: string, content: string, subverse: string, isUrl: bool, resp: Response<D>)
    requires Login(c, now, username, password, tokenResp).result.Success?
    ensures Submit(Login(c, now, username, password, tokenResp).client, title, content, subverse, isUrl, resp).sent.Some?
    ensures Submit(Login(c, now, username, password, tokenResp).client, title, content, subverse, isUrl, resp).sent.value.headers
            == map["Authorization" := Credentials(tokenResp.data.tokenType, tokenResp.data.accessToken)]
  {
  }

  /** Unlike the newer client, a 404 on submit is not reported as "not found": the
      error is the generic one carrying the code. */
  lemma SubmitHasNoStatusTable<D>(c: LegacyClient, title: string, content: string, subverse: string, isUrl: bool, resp: Response<D>)
    requires c.loggedIn && !resp.ok && resp.status == 404
    ensures !Submit(c, title, content, subverse, isUrl, resp).result.error.ThingNotFound?
    ensures Submit(c, title, content, subverse, isUrl, resp).result.error == VoatException(Code(404))
  {
  }
}

=== FILE: routes.dfy ===
/** The paths and JSON bodies the facades send, shared by both client revisions.
    Paths are what follows the configured base URL. */
module Routes {
  import opened Wrappers
  import opened Text

  const SubversePrefix: string := "api/v1/v/"
  const SubmissionsPrefix: string := "api/v1/submissions/"

  /** `v/{subverse}`: listing a subverse and posting into it. */
  function SubversePath(subverse: string): (p: string)
    ensures |p| == |SubversePrefix| + |subverse|
    ensures p[..|SubversePrefix|] == SubversePrefix && p[|SubversePrefix|..] == subverse
  {
    SubversePrefix + subverse
  }

  predicate HasPrefix(s: string, p: string) {
    |p| <= |s| && s[..|p|] == p
  }

  /** Position of the last occurrence of `c` in `s`. */
  function LastIndexOf(s: string, c: char): (r: Option<nat>)
    ensures r.Some? ==> r.value < |s| && s[r.value] == c
    ensures r.Some? ==> forall j :: r.value < j < |s| ==> s[j] != c
    ensures r.None? ==> forall j :: 0 <= j < |s| ==> s[j] != c
  {
    if |s| == 0 then None
    else if s[|s| - 1] == c then Some(|s| - 1)
    else LastIndexOf(s[..|s| - 1], c)
  }

  /** Reads the post id and optional subverse back out of a post path. */
  function ParsePostPath(path: string): Option<(int, Option<string>)> {
    if HasPrefix(path, SubmissionsPrefix) then
      match ParseInt(path[|SubmissionsPrefix|..])
      case Some(id) => Some((id, None))
      case None => None
    else if HasPrefix(path, SubversePrefix) then
      var rest := path[|SubversePrefix|..];
      match LastIndexOf(rest, '/')
      case None => None
      case Some(k) =>
        match ParseInt(rest[k + 1..])
        case Some(id) => Some((id, Some(rest[..k])))
        case None => None
    else None
  }

  /** `LastIndexOf` finds an occurrence exactly when no later one exists. */
  lemma LastIndexOfAt(s: string, c: char, k: nat)
    requires k < |s| && s[k] == c
    requires forall j :: k < j < |s| ==> s[j] != c
    ensures LastIndexOf(s, c) == Some(k)
  {
  }

  /** The last slash of `a + "/" + b` is the one added, when `b` has none. */
  lemma {:induction false} LastSlashOfJoin(a: string, b: string)
    requires forall j :: 0 <= j < |b| ==> b[j] != '/'
    ensures LastIndexOf(a + "/" + b, '/') == Some(|a|)
  {
    var s := a + "/" + b;
    assert s[|a|] == '/';
    forall j | |a| < j < |s|
      ensures s[j] != '/'
    {
      assert s[j] == b[j - |a| - 1];
    }
    LastIndexOfAt(s, '/', |a|);
  }

  /** `submissions/{id}` gives back its id. */
  lemma ParseSubmissionsPath(postId: int)
    ensures ParsePostPath(SubmissionsPrefix + FormatInt(postId)) == Some((postId, None))
  {
    var path := SubmissionsPrefix + FormatInt(postId);
    FormatIntRoundTrip(postId);
    assert path[..|SubmissionsPrefix|] == SubmissionsPrefix;
    assert path[|SubmissionsPrefix|..] == FormatInt(postId);
  }

  /** `v/{subverse}/{id}` gives back its id and its subverse, slashes included. */
  lemma ParseSubversePath(postId: int, s: string)
    ensures ParsePostPath(SubversePrefix + s + "/" + FormatInt(postId)) == Some((postId, Some(s)))
  {
    var f := FormatInt(postId);
    var path := SubversePrefix + s + "/" + f;
    FormatIntRoundTrip(postId);
    assert path[7] == 'v' != SubmissionsPrefix[7];
    assert !HasPrefix(path, SubmissionsPrefix);
    assert path[..|SubversePrefix|] == SubversePrefix;
    var rest := path[|SubversePrefix|..];
    assert rest == s + "/" + f;
    LastSlashOfJoin(s, f);
    assert rest[|s| + 1..] == f;
    assert rest[..|s|] == s;
  }

  /** One post: `submissions/{id}` without a subverse, `v/{subverse}/{id}` with one.
      The choice is lossless: the id and the subverse (any text, slashes included)
      can be read back from the path. */
  function PostPath(postId: int, subverse: Option<string>): (p: string)
    ensures ParsePostPath(p) == Some((postId, subverse))
  {
    match subverse
    case None =>
      ParseSubmissionsPath(postId);
      SubmissionsPrefix + FormatInt(postId)
    case Some(s) =>
      ParseSubversePath(postId, s);
      SubversePrefix + s + "/" + FormatInt(postId)
  }

  /** Distinct posts get distinct paths. */
  lemma PostPathInjective(a: int, sa: Option<string>, b: int, sb: Option<string>)
    requires (a, sa) != (b, sb)
    ensures PostPath(a, sa) != PostPath(b, sb)
  {
  }

  /** The JSON body of a submit or an edit: the title, and the content under `url`
      for a link post or under `content` for a text post. */
  function PostBody(title: string, content: string, isUrl: bool): (b: map<string, string>)
    ensures b.Keys == {"title", if isUrl then "url" else "content"}
    ensures b["title"] == title
    ensures ("url" in b <==> isUrl) && ("content" in b <==> !isUrl)
    ensures isUrl ==> b["url"] == content
    ensures !isUrl ==> b["content"] == content
  {
    if isUrl then map["title" := title, "url" := content]
    else map["title" := title, "content" := content]
  }

  /** Reads title, content and kind back from a body. */
  function ReadBody(b: map<string, string>): Option<(string, string, bool)> {
    if "title" in b && "url" in b && "content" !in b then Some((b["title"], b["url"], true))
    else if "title" in b && "content" in b && "url" !in b then Some((b["title"], b["content"], false))
    else None
  }

  /** Nothing is lost building a body. */
  lemma PostBodyRoundTrip(title: string, content: string, isUrl: bool)
    ensures ReadBody(PostBody(title, content, isUrl)) == Some((title, content, isUrl))
  {
  }
}

=== FILE: text.dfy ===
/** The few Python string operations the client relies on, restricted to ASCII:
    `str.isdigit` and `int(s)` for token lifetimes, `"{}".format(n)` for post ids
    in paths, and `str.capitalize` for the Authorization scheme. */
module Text {
  import opened Wrappers

  predicate IsAsciiDigit(c: char) {
    '0' <= c <= '9'
  }

  predicate AllDigits(s: string) {
    forall i :: 0 <= i < |s| ==> IsAsciiDigit(s[i])
  }

  /** `s.isdigit()`: true only for a non-empty string of digits. */
  predicate IsDigitString(s: string) {
    |s| > 0 && AllDigits(s)
  }

  function DigitValue(c: char): (d: nat)
    requires IsAsciiDigit(c)
    ensures d < 10
  {
    (c as int) - ('0' as int)
  }

  function DigitChar(d: nat): (c: char)
    requires d < 10
    ensures IsAsciiDigit(c) && DigitValue(c) == d
  {
    (('0' as int) + d) as char
  }

  /** `int(s)` on a string of decimal digits, most significant digit first. */
  function ParseDecimal(s: string): nat
    requires AllDigits(s)
  {
    if |s| == 0 then 0 else 10 * ParseDecimal(s[..|s| - 1]) + DigitValue(s[|s| - 1])
  }

  /** A run of `z` zero digits. */
  function Zeros(z: nat): (s: string)
    ensures |s| == z && AllDigits(s)
    ensures forall i :: 0 <= i < z ==> s[i] == '0'
  {
    seq(z, _ => '0')
  }

  /** Zero digits alone read as zero. */
  lemma {:induction false} ParseZeros(z: nat)
    ensures ParseDecimal(Zeros(z)) == 0
  {
    if z > 0 {
      assert Zeros(z)[..z - 1] == Zeros(z - 1);
      ParseZeros(z - 1);
    }
  }

  /** Leading zeros do not change the number a digit string spells: `int("0300")` is 300. */
  lemma {:induction false} ParseLeadingZeros(z: nat, s: string)
    requires AllDigits(s)
    ensures AllDigits(Zeros(z) + s)
    ensures ParseDecimal(Zeros(z) + s) == ParseDecimal(s)
    decreases |s|
  {
    var t := Zeros(z) + s;
    assert forall i :: 0 <= i < |t| ==> t[i] == (if i < z then '0' else s[i - z]);
    if |s| == 0 {
      assert t == Zeros(z);
      ParseZeros(z);
    } else {
      var init := s[..|s| - 1];
      assert t[..|t| - 1] == Zeros(z) + init;
      ParseLeadingZeros(z, init);
    }
  }

  /** The decimal text of a natural number, without leading zeros. */
  function ShowDecimal(n: nat): (s: string)
    ensures IsDigitString(s)
    ensures n == 0 || s[0] != '0'
  {
    if n < 10 then [DigitChar(n)] else ShowDecimal(n / 10) + [DigitChar(n % 10)]
  }

  /** Reading back the decimal text of `n` gives `n`. */
  lemma {:induction false} ParseShowDecimal(n: nat)
    ensures ParseDecimal(ShowDecimal(n)) == n
  {
    if n >= 10 {
      var s := ShowDecimal(n);
      assert s[..|s| - 1] == ShowDecimal(n / 10);
      ParseShowDecimal(n / 10);
    }
  }

  /** `"{}".format(i)` for an int: an optional minus sign and the decimal digits. */
  function FormatInt(i: int): (s: string)
    ensures |s| > 0
    ensures i >= 0 ==> s[0] != '-' && (s[0] != '0' || i == 0)
    ensures i == 0 ==> s == "0"
    ensures i < 0 ==> s[0] == '-' && |s| > 1 && s[1] != '0'
    ensures forall k :: 0 <= k < |s| ==> IsAsciiDigit(s[k]) || s[k] == '-'
  {
    if i < 0 then "-" + ShowDecimal(-i) else ShowDecimal(i)
  }

  /** `int(s)` restricted to an optional minus sign followed by ASCII digits. */
  function ParseInt(s: string): Option<int>
  {
    if |s| > 0 && s[0] == '-' && IsDigitString(s[1..]) then Some(0 - ParseDecimal(s[1..]) as int)
    else if IsDigitString(s) then Some(ParseDecimal(s) as int)
    else None
  }

  /** Formatting an int and parsing it back is the identity. */
  lemma FormatIntRoundTrip(i: int)
    ensures ParseInt(FormatInt(i)) == Some(i)
  {
    if i < 0 {
      var s := FormatInt(i);
      assert s[1..] == ShowDecimal(-i);
      ParseShowDecimal(-i);
    } else {
      ParseShowDecimal(i);
    }
  }

  function Lower(c: char): char {
    if 'A' <= c <= 'Z' then ((c as int) + 32) as char else c
  }

  function Upper(c: char): char {
    if 'a' <= c <= 'z' then ((c as int) - 32) as char else c
  }

  function LowerAll(s: string): (r: string)
    ensures |r| == |s|
    ensures forall i :: 0 <= i < |s| ==> r[i] == Lower(s[i])
  {
    seq(|s|, i requires 0 <= i < |s| => Lower(s[i]))
  }

  /** `s.capitalize()`: first character upper case, the rest lower case. */
  function Capitalize(s: string): (r: string)
    ensures |r| == |s|
    ensures |s| > 0 ==> r[0] == Upper(s[0])
    ensures forall i :: 0 < i < |s| ==> r[i] == Lower(s[i])
  {
    if |s| == 0 then "" else [Upper(s[0])] + LowerAll(s[1..])
  }

  /** Capitalizing an already capitalized string changes nothing. */
  lemma CapitalizeIdempotent(s: string)
    ensures Capitalize(Capitalize(s)) == Capitalize(s)
  {
  }

  /** Capitalize ignores the case of its input: strings that agree once lower-cased
      capitalize to the same text. */
  lemma CapitalizeIgnoresCase(s: string, t: string)
    requires LowerAll(s) == LowerAll(t)
    ensures Capitalize(s) == Capitalize(t)
  {
  }
}

=== FILE: throttle.dfy ===
/** The one-call-per-second rule of `Voat.__getattribute__` as a state transition.
    The clock is an integer count of milliseconds; the sleep becomes a returned wait
    that advances the clock. */
module Throttle {
  import opened Wrappers
  import opened Clock

  function Max(a: int, b: int): int {
    if a < b then b else a
  }

  /** The outcome of one attribute lookup: how long it slept, the clock after the
      sleep, and the new `last_call`. */
  datatype Lookup = Lookup(wait: int, at: int, lastCall: Option<int>)

  /** An attribute lookup at time `now`. A callable value sleeps out the rest of the
      second since the previous stamp, then stamps the clock; any other value leaves
      the state alone. */
  function OnLookup(lastCall: Option<int>, now: int, callable: bool): (r: Lookup)
    ensures r.wait >= 0 && r.at == now + r.wait
    ensures !callable ==> r.wait == 0 && r.lastCall == lastCall
    ensures callable ==> r.lastCall == Some(r.at)
    ensures lastCall.None? ==> r.wait == 0
    ensures callable && lastCall.Some? ==> r.at == Max(now, lastCall.value + Second)
  {
    if !callable then Lookup(0, now, lastCall)
    else match lastCall
      case None => Lookup(0, now, Some(now))
      case Some(last) =>
        var elapsed := now - last;
        if elapsed < Second then
          var wait := Second - elapsed;
          Lookup(wait, now + wait, Some(now + wait))
        else Lookup(0, now, Some(now))
  }

  /** A callable lookup never runs within a second of the previous one. */
  lemma LookupSpacing(last: int, now: int)
    ensures OnLookup(Some(last), now, true).at >= last + Second
    ensures now - last >= Second ==> OnLookup(Some(last), now, true).wait == 0
  {
  }

  /** The stamps of a run of callable lookups. The first is attempted `gaps[0]` after
      `start`, each later one `gaps[k]` after the previous stamp. */
  function Stamps(lastCall: Option<int>, start: int, gaps: seq<nat>): (r: seq<int>)
    ensures |r| == |gaps|
    ensures |r| > 0 ==> r[0] >= start + gaps[0]
    ensures |r| > 0 && lastCall.Some? ==> r[0] >= lastCall.value + Second
    ensures forall k :: 0 <= k < |r| - 1 ==> r[k + 1] >= r[k] + Second
    decreases |gaps|
  {
    if |gaps| == 0 then []
    else
      var l := OnLookup(lastCall, start + gaps[0], true);
      [l.at] + Stamps(l.lastCall, l.at, gaps[1..])
  }

  /** N consecutive calls span at least N - 1 seconds. */
  lemma {:induction false} StampsSpan(lastCall: Option<int>, start: int, gaps: seq<nat>)
    requires |gaps| > 0
    ensures Stamps(lastCall, start, gaps)[|gaps| - 1] - Stamps(lastCall, start, gaps)[0] >= Second * (|gaps| - 1)
    decreases |gaps|
  {
    if |gaps| > 1 {
      var l := OnLookup(lastCall, start + gaps[0], true);
      var r := Stamps(lastCall, start, gaps);
      var rest := Stamps(l.lastCall, l.at, gaps[1..]);
      assert r == [l.at] + rest;
      StampsSpan(l.lastCall, l.at, gaps[1..]);
      assert rest[0] >= l.at + Second;
    }
  }
}

=== FILE: tokens.dfy ===
/** The bearer token of the three `AuthToken` revisions and the `get_auth` exchange.
    The revisions share one state machine and differ only in the errors they raise,
    so each operation takes the `Revision` it speaks for. Time is the integer clock
    of module `Clock`, passed in by the caller; a token remembers the instant it was
    built, and its lifetime counts seconds of that clock. */
module Tokens {
  import opened Wrappers
  import opened Text
  import opened Exceptions
  import opened Http
  import opened Clock

  /** Current: py_voat/classes.py. Intermediate: py_voat/authentication.py.
      Legacy: voat_api/voat_api.py. */
  datatype Revision = Current | Intermediate | Legacy

  /** The Python value given as `expiry_date`. */
  datatype ExpiryValue = IntValue(i: int) | StrValue(s: string) | OtherValue

  /** A token as stored: owner, secret, scheme name, construction time and lifetime. */
  datatype AuthToken = AuthToken(username: string, secret: string, tokenType: string, gottenAt: int, expiryDate: int)

  function BadExpiryError(rev: Revision): VoatError {
    if rev == Current then BadExpiry(BadExpiryDate) else VoatException(Message(BadExpiryDate))
  }

  function ExpiredError(rev: Revision): VoatError {
    if rev == Current then ExpiredToken(ThisTokenIsExpired) else VoatException(Message(TokenIsExpired))
  }

  /** The lifetime check of the constructor: an int passes unchanged, a digit string
      is converted, anything else is refused. */
  function CoerceExpiry(e: ExpiryValue): (r: Option<int>)
    ensures r.Some? <==> e.IntValue? || (e.StrValue? && IsDigitString(e.s))
    ensures e.IntValue? ==> r == Some(e.i)
    ensures e.StrValue? && r.Some? ==> r.value >= 0
  {
    match e
    case IntValue(i) => Some(i)
    case StrValue(s) => if IsDigitString(s) then Some(ParseDecimal(s)) else None
    case OtherValue => None
  }

  /** A digit string is converted to the very number it spells, whatever run of
      leading zeros precedes its digits. */
  lemma DigitStringExpiry(z: nat, n: nat)
    ensures CoerceExpiry(StrValue(Zeros(z) + ShowDecimal(n))) == Some(n)
  {
    ParseLeadingZeros(z, ShowDecimal(n));
    ParseShowDecimal(n);
  }

  /** `AuthToken(username, token, token_type, expiry_date)` built at time `now`. */
  function NewToken(rev: Revision, username: string, secret: string, tokenType: string,
                    expiry: ExpiryValue, now: int): (r: Result<AuthToken, VoatError>)
    ensures r.Success? <==> expiry.IntValue? || (expiry.StrValue? && IsDigitString(expiry.s))
    ensures r.Failure? ==> r.error == BadExpiryError(rev)
    ensures r.Success? ==> r.value.username == username && r.value.secret == secret
                           && r.value.tokenType == tokenType && r.value.gottenAt == now
    ensures r.Success? && expiry.IntValue? ==> r.value.expiryDate == expiry.i
    ensures r.Success? ==> Some(r.value.expiryDate) == CoerceExpiry(expiry)
  {
    match CoerceExpiry(expiry)
    case None => Failure(BadExpiryError(rev))
    case Some(d) => Success(AuthToken(username, secret, tokenType, now, d))
  }

  /** The instant from which reads fail: the build instant plus the lifetime, which
      counts seconds. */
  function Deadline(t: AuthToken): int {
    t.gottenAt + t.expiryDate * Second
  }

  /** Reading the `token` property at time `now`. */
  function ReadToken(rev: Revision, t: AuthToken, now: int): (r: Result<string, VoatError>)
    ensures r.Success? <==> now < t.gottenAt + t.expiryDate * Second
    ensures r.Success? ==> r.value == t.secret
    ensures r.Failure? ==> r.error == ExpiredError(rev)
  {
    if now >= Deadline(t) then Failure(ExpiredError(rev)) else Success(t.secret)
  }

  /** Expiry is final: once a read fails, every later read fails too. */
  lemma ExpiryIsPermanent(rev: Revision, t: AuthToken, now: int, later: int)
    requires now <= later
    requires ReadToken(rev, t, now).Failure?
    ensures ReadToken(rev, t, later) == ReadToken(rev, t, now)
  {
  }

  /** A token with int lifetime `d` built at `now` is readable exactly during the
      `d` seconds that follow; in particular a lifetime of zero or less is expired
      on its first read. */
  lemma LifetimeWindow(rev: Revision, username: string, secret: string, tokenType: string,
                       d: int, now: int, at: int)
    requires now <= at
    ensures NewToken(rev, username, secret, tokenType, IntValue(d), now).Success?
    ensures ReadToken(rev, NewToken(rev, username, secret, tokenType, IntValue(d), now).value, at).Success?
            <==> at - now < d * Second
    ensures d <= 0 ==> ReadToken(rev, NewToken(rev, username, secret, tokenType, IntValue(d), now).value, at)
                       == Failure(ExpiredError(rev))
  {
  }

  /** The last readable instant and the first expired one: a token with lifetime `d`
      seconds built at `now` still reads one tick before `d` seconds have passed and
      fails once they have. */
  lemma LifetimeBoundary(rev: Revision, username: string, secret: string, tokenType: string, d: int, now: int)
    ensures NewToken(rev, username, secret, tokenType, IntValue(d), now).Success?
    ensures ReadToken(rev, NewToken(rev, username, secret, tokenType, IntValue(d), now).value, now + d * Second - 1)
            == Success(secret)
    ensures ReadToken(rev, NewToken(rev, username, secret, tokenType, IntValue(d), now).value, now + d * Second)
            == Failure(ExpiredError(rev))
  {
  }

  /** The `headers` property (current revision): the Authorization header built from
      the scheme name and the secret, read with the expiry check. */
  function Headers(t: AuthToken, now: int): (r: Result<map<string, string>, VoatError>)
    ensures r.Success? <==> now < t.gottenAt + t.expiryDate * Second
    ensures r.Failure? ==> r.error == ExpiredToken(ThisTokenIsExpired)
    ensures r.Success? ==> r.value.Keys == {"Authorization"}
    ensures r.Success? ==> |r.value["Authorization"]| == |t.tokenType| + 1 + |t.secret|
    ensures r.Success? ==> r.value["Authorization"][..|t.tokenType|] == Capitalize(t.tokenType)
    ensures r.Success? ==> r.value["Authorization"][|t.tokenType|] == ' '
    ensures r.Success? ==> r.value["Authorization"][|t.tokenType| + 1..] == t.secret
  {
    match ReadToken(Current, t, now)
    case Failure(e) => Failure(e)
    case Success(secret) => Success(map["Authorization" := Credentials(t.tokenType, secret)])
  }

  /** `"{} {}".format(token_type.capitalize(), token)`. */
  function Credentials(tokenType: string, secret: string): (v: string)
    ensures |v| == |tokenType| + 1 + |secret|
    ensures v[..|tokenType|] == Capitalize(tokenType)
    ensures v[|tokenType|] == ' '
    ensures v[|tokenType| + 1..] == secret
  {
    Capitalize(tokenType) + " " + secret
  }

  /** For a token of type "bearer", in any case, the header takes the form
      `Bearer <token>` of section 2.1 of RFC 6750. */
  lemma BearerCredentials(tokenType: string, secret: string)
    requires LowerAll(tokenType) == "bearer"
    ensures Credentials(tokenType, secret) == "Bearer " + secret
  {
  }

  /** `str(token)` of the two older revisions: the same read, with the same failure. */
  function Str(rev: Revision, t: AuthToken, now: int): (r: Result<string, VoatError>)
    requires rev != Current
    ensures r.Success? <==> now < t.gottenAt + t.expiryDate * Second
    ensures r.Success? ==> r.value == t.secret
    ensures r.Failure? ==> r.error == VoatException(Message(TokenIsExpired))
  {
    ReadToken(rev, t, now)
  }

  /** The older revisions run the same state machine as the current one: they accept
      and refuse the same lifetimes, store the same token, and let the same reads
      through; only the exceptions differ, both being the generic `VoatException`. */
  lemma OlderRevisions(rev: Revision, username: string, secret: string, tokenType: string,
                       expiry: ExpiryValue, now: int, t: AuthToken, at: int)
    requires rev != Current
    ensures NewToken(rev, username, secret, tokenType, expiry, now).Success?
            == NewToken(Current, username, secret, tokenType, expiry, now).Success?
    ensures NewToken(rev, username, secret, tokenType, expiry, now).Success? ==>
              NewToken(rev, username, secret, tokenType, expiry, now).value
              == NewToken(Current, username, secret, tokenType, expiry, now).value
    ensures NewToken(rev, username, secret, tokenType, expiry, now).Failure? ==>
              NewToken(rev, username, secret, tokenType, expiry, now).error == VoatException(Message(BadExpiryDate))
    ensures ReadToken(rev, t, at).Success? == ReadToken(Current, t, at).Success?
    ensures ReadToken(rev, t, at).Success? ==> ReadToken(rev, t, at).value == ReadToken(Current, t, at).value
    ensures ReadToken(rev, t, at).Failure? ==> ReadToken(rev, t, at).error == VoatException(Message(TokenIsExpired))
  {
  }

  /** Decoded body of a token response (section 5.1 of RFC 6749), as Voat names its fields. */
  datatype TokenJson = TokenJson(userName: string, accessToken: string, tokenType: string, expiresIn: ExpiryValue)

  /** The resource-owner password request of section 4.3.2 of RFC 6749, sent to the token endpoint. */
  function TokenRequest(username: string, password: string, apiKey: string): (q: Request)
    ensures q.verb == Post && q.path == "/api/token"
    ensures q.body.Keys == {"grant_type", "username", "password"}
    ensures q.body["grant_type"] == "password" && q.body["username"] == username && q.body["password"] == password
    ensures "Voat-ApiKey" in q.headers && q.headers["Voat-ApiKey"] == apiKey
  {
    Request(Post, "/api/token",
            map["grant_type" := "password", "username" := username, "password" := password],
            map["Voat-ApiKey" := apiKey, "Content-Type" := "application/x-www-form-urlencoded"])
  }

  /** `get_auth`: on an ok response, a token from the response fields built at `now`;
      on any other response, nothing. */
  function GetAuth(rev: Revision, resp: Response<TokenJson>, now: int): (r: Result<Option<AuthToken>, VoatError>)
    ensures !resp.ok ==> r == Success(None)
    ensures resp.ok ==> (r.Success? <==> CoerceExpiry(resp.data.expiresIn).Some?)
    ensures resp.ok && r.Failure? ==> r.error == BadExpiryError(rev)
    ensures resp.ok && r.Success? ==>
              && r.value.Some?
              && r.value.value.username == resp.data.userName
              && r.value.value.secret == resp.data.accessToken
              && r.value.value.tokenType == resp.data.tokenType
              && r.value.value.gottenAt == now
              && Some(r.value.value.expiryDate) == CoerceExpiry(resp.data.expiresIn)
  {
    if resp.ok then
      var t :- NewToken(rev, resp.data.userName, resp.data.accessToken, resp.data.tokenType, resp.data.expiresIn, now);
      Success(Some(t))
    else
      Success(None)
  }
}

=== FILE: wrappers.dfy ===
/** Failure-compatible Option and Result datatypes used throughout the model.
    A Python `None` return becomes `None`; a raised exception becomes `Failure`. */
module Wrappers {

  datatype Option<+T> = None | Some(value: T) {

    predicate IsFailure() {
      None?
    }

    function PropagateFailure<U>(): Option<U>
      requires None?
    {
      None
    }

    function Extract(): T
      requires Some?
    {
      value
    }
  }

  datatype Result<+R, +E> = Success(value: R) | Failure(error: E) {

    predicate IsFailure() {
      Failure?
    }

    function PropagateFailure<U>(): Result<U, E>
      requires Failure?
    {
      Failure(error)
    }

    function Extract(): R
      requires Success?
    {
      value
    }
  }
}
